=== FILE: README.md ===
# gt-feed-server: a Dafny model of the D-Bus query bridge

The feed server (`backend/gt-feed-server.c`) exposes one D-Bus method,
`Query(s, i)`, and one read/write property, `ApiKey`. It hands a query to a
search backend (the `GtFeed` object it owns). When the search finishes, it
rewrites the backend's GVariant result so that no maybe slot is left
(`deal_maybe`, `filter_item`, `filter_search_result`) and replies with that
result. The API key is never stored by the server itself: every read and
write is delegated to the feed's `api-key` property.

The model has five modules:

- `Wrappers` (`wrappers.dfy`): `Option`, which stands in for a nullable C pointer.
- `Variant` (`variant.dfy`): an untyped GVariant tree. A value is a string, another basic value, or a container of kind array, tuple, dict entry, variant box or maybe. GLib treats a maybe as a container, and so does this model. The module also defines:
  - the size measure and well-formedness (the arity of each container class);
  - the "no maybe", "no maybe-of-maybe" and "every maybe child sits in a variant box" predicates;
  - `Leaves`, the visible scalar leaves in order, with an empty maybe read as `""`.
- `Normalizer` (`normalizer.dfy`): the result normaliser, as a pure recursive function plus two methods that mirror `filter_item` and its builder loop. The result is `None` where the C code gets NULL.
- `Dispatcher` (`dispatcher.dfy`): `method_call`, `query` and `cb` as a small state machine over one invocation, the `dbus_errors` table, and a map of in-flight invocations for overlapping calls. The backend is an oracle. `accepts` is the return value of `gt_feed_search`, and a `Completion` is what `gt_feed_search_finish` delivers.
- `Credential` (`credential.dfy`): the GObject property handlers, the D-Bus property handlers, `gt_feed_server_set_apikey` and `gt_feed_server_new`, over a state that holds only the feed's key.

Behaviour of the code worth noting:

- Only a NULL query is refused (line 253). An empty query string is accepted and sent to the backend (`Dispatcher.EmptyQuerySearched`). GDBus checks the `(si)` signature, so a NULL string cannot actually arrive over the bus; the check is kept as written.
- A maybe is a container, so `deal_maybe` at line 194 never sees one and is the identity there. Maybes are unwrapped only as children of a container (line 202). A maybe at the root is kept (`Normalizer.MaybeRootKept`).
- `filter_item` rebuilds each container with a builder for the container's ORIGINAL type (line 197). `g_variant_builder_add_value` (lines 201-202) refuses a child whose type differs from the type the builder expects. An unwrapped maybe always has a different type, and only a variant box accepts a child of any type. So, outside a variant box:
  - an array loses its unwrapped maybe elements;
  - a maybe holding a maybe becomes empty;
  - a tuple or dict entry that loses a child cannot be finished, and `g_variant_builder_end` (line 206) returns NULL (`Normalizer.UnboxedMaybesLost`).

  A child whose rewrite is NULL (a nested tuple or dict entry that came up short) is refused the same way, since NULL fails the type check. An array or maybe drops it and goes on, and a tuple or dict entry then comes up short in turn. So `[{"year", Nothing}]` of type `a{sms}` comes back as an empty array, and the caller receives `([],)` (`Normalizer.NullChildDropped`, `Dispatcher.NullEntryRepliedEmpty`). Only a variant box expects no particular type, so its builder does not type-check the NULL. GLib then dereferences the NULL child, which is undefined behaviour (in practice a crash). The model uses a NULL box as its stand-in for that case.

  The model decides acceptance from the untyped tree. A rewritten child keeps its type unless `deal_maybe` unwrapped a maybe, so the rule is: the parent is a variant box, or the child is not a maybe. Consequences:
  - "No data is lost" holds only when every maybe child sits in a variant box, as in an `a{sv}` record list (`Normalizer.FilterKeepsLeaves`).
  - "No maybe is left" holds for any non-NULL result whose root is not a maybe and whose input has no maybe holding a maybe; with a maybe at the root, no maybe is left below it (`Normalizer.FilterRemovesMaybes`). Idempotence needs only that no maybe holds a maybe (`Normalizer.FilterIdempotent`).
  - A maybe inside a maybe inside a variant box leaves a maybe behind, so there a second pass changes the result (`Normalizer.BoxedNestedMaybeNotIdempotent`).
- A result with no children is handed back as it is. This equals what `filter_item` would rebuild (`Normalizer.FilterSearchResult`).
- A NULL normalised result reaches `g_variant_new_tuple` in `cb` (line 237), where GLib's behaviour is undefined. The model records it as the outcome `NullReply`. This happens only when the root is a tuple or dict entry that came up short, or in the model's stand-in for a variant box given a NULL child.

## Model

| member | source | states |
|---|---|---|
| Normalizer.DealMaybe | backend/gt-feed-server.c:170-183 | An empty maybe becomes `Str("")` and a present maybe becomes its payload. Anything else passes unchanged. It never grows the tree, and on well-formed trees it keeps well-formedness and the visible leaves. |
| Normalizer.CountAccepted | backend/gt-feed-server.c:200-202 | At most every child is accepted, and all are accepted exactly when each passes the builder's check. |
| Normalizer.FilterItem | backend/gt-feed-server.c:186-207 | A non-container comes back unchanged. A non-NULL rebuilt container has the same kind and no more children than pass the builder's type check. A tuple, dict entry or variant box keeps all its children. |
| Normalizer.FilterChildren | backend/gt-feed-server.c:198-204 | The loop never keeps more results than there are children that pass the builder's type check. |
| Normalizer.FilterChildrenNull | backend/gt-feed-server.c:200-204 | The loop yields NULL exactly when the builder is for a variant box and some rewritten child is NULL. That NULL stands in for GLib's undefined behaviour. Every other builder refuses a NULL child and goes on. |
| Normalizer.CountTaken | backend/gt-feed-server.c:200-202 | The builder takes no child that fails its type check, and it takes every child when each passes the check and has a non-NULL rewrite. |
| Normalizer.FilterChildrenCount | backend/gt-feed-server.c:198-204 | A non-NULL loop result has exactly one entry per child the builder took. |
| Normalizer.FilterChildrenAll | backend/gt-feed-server.c:200-202 | When the builder accepts every child, child `i` of the result is `FilterItem(DealMaybe(child i))` at the same position. |
| Normalizer.FilterItemLoop | backend/gt-feed-server.c:186-207 | filter_item as written: it runs the builder loop, then finishes the builder. A NULL rewritten child is refused and the loop goes on, except in a variant box, where the model's NULL stands in for GLib's undefined behaviour. This computes exactly `FilterItem`. |
| Normalizer.FilterChildrenLoop | backend/gt-feed-server.c:198-204 | The iterator/builder loop offers each rewritten child to the builder and keeps only the ones it takes. A NULL child is refused and the loop goes on, except under a variant box, where the model's NULL result stands in for GLib's undefined behaviour. It computes exactly `FilterChildren`. |
| Normalizer.SnocKept | backend/gt-feed-server.c:200-202 | An accepted child appended to the loop's input adds its rewrite at the end of the output. |
| Normalizer.SnocRefused | backend/gt-feed-server.c:200-202 | A refused child, whether its type changed or its rewrite is NULL outside a variant box, leaves the loop's output as it was. |
| Normalizer.NullInBoxNullLoop | backend/gt-feed-server.c:200-204 | A variant box offered a NULL rewritten child is rebuilt as NULL, the model's stand-in for GLib's undefined behaviour on that input. |
| Normalizer.NoNullChildSomeLoop | backend/gt-feed-server.c:198-204 | Outside a variant box, or when no rewritten child is NULL, the loop never yields NULL. |
| Normalizer.FinishRebuild | backend/gt-feed-server.c:206 | Ending the builder gives the kept children, or NULL when a tuple, dict entry or variant box came up short. |
| Normalizer.FilterSearchResult | backend/gt-feed-server.c:209-216 | A result with zero children is returned as it is, and the result always equals `FilterItem` of the content. |
| Normalizer.NoMaybeFixedPoint | backend/gt-feed-server.c:170-207 | A tree with no maybe anywhere is rebuilt unchanged. |
| Normalizer.FilterRemovesMaybes | backend/gt-feed-server.c:170-207 | With no maybe holding a maybe, a non-NULL result has no maybe below its root, and none at all for a non-maybe root. |
| Normalizer.FilterIdempotent | backend/gt-feed-server.c:186-207 | With no maybe holding a maybe, a second pass over a non-NULL result changes nothing. |
| Normalizer.FilterWellFormed | backend/gt-feed-server.c:197-206 | A non-NULL result of a well-formed tree is well-formed. |
| Normalizer.BoxedMaybesKept | backend/gt-feed-server.c:197-206 | When every maybe child sits in a variant box, the result is never NULL and no child is dropped. |
| Normalizer.FilterKeepsLeaves | backend/gt-feed-server.c:170-207 | When every maybe child sits in a variant box, no data is lost: the output's leaves, in order, are the input's leaves, with an empty maybe reading as `""`. |
| Normalizer.SearchResultNormalised | backend/gt-feed-server.c:209-216 | A non-NULL normalised search result that is well-formed, whose root is not a maybe and with no maybe holding a maybe has no maybe left, is idempotent and is well-formed. |
| Normalizer.SearchResultKeepsData | backend/gt-feed-server.c:209-216 | A search result whose maybe children sit in variant boxes is never NULL and keeps every leaf. |
| Normalizer.MaybeRootKept | backend/gt-feed-server.c:193-206 | An empty maybe at the root is returned unchanged, so a maybe can survive. |
| Normalizer.UnboxedMaybesLost | backend/gt-feed-server.c:197-206 | `[Just("a"), Nothing]` comes back as `[]`. `("t", Nothing)` comes back NULL. `Just(Just(Nothing))` comes back as `Nothing`. |
| Normalizer.NullChildDropped | backend/gt-feed-server.c:197-206 | `[{"year", Nothing}]` comes back as `[]`: the entry's rewrite is NULL, and the array refuses it. The same entry in a variant box gives the model's stand-in NULL box, where GLib's behaviour is undefined. |
| Normalizer.NullOutsideBoxDropped | backend/gt-feed-server.c:197-206 | An array or maybe whose only child rewrites to NULL is rebuilt empty, not NULL. |
| Normalizer.BoxedNestedMaybeNotIdempotent | backend/gt-feed-server.c:200-202 | `<Just(Nothing)>` filters to `<Nothing>` and then to `<"">`, so idempotence fails for a maybe holding a maybe. |
| Dispatcher.DbusErrorName | backend/gt-feed-server.c:414-423 | Every registered error name lies under `org.mfs.GtraktError.`. |
| Dispatcher.DbusErrorNamesDistinct | backend/gt-feed-server.c:414-423 | The code-to-name table is one-to-one. |
| Dispatcher.Query | backend/gt-feed-server.c:240-281 | A search is issued exactly when the query is non-NULL and the type is in `[movies, max)`. A NULL query gives MissingParameter "No query was specified.", checked first. A bad type gives MissingParameter "Search type is not valid.". Neither case issues a search. A refused search gives InvalidQuery "The specified query is invalid.". The invocation waits exactly when the backend accepted. |
| Dispatcher.EmptyQuerySearched | backend/gt-feed-server.c:250-271 | An empty query string with a valid type is not refused, and exactly that search is issued. |
| Dispatcher.MethodCall | backend/gt-feed-server.c:283-300 | "Query" is handed to `query` with its parameters, so it gets exactly the outcomes `Dispatcher.Query` states. A name other than "Query" gets `NoReply` and no search, and `NoReply` happens only then. |
| Dispatcher.Complete | backend/gt-feed-server.c:218-238 | A backend error is delivered unchanged. A non-NULL normalised result is replied as a 1-tuple. A NULL one gives `NullReply`. Afterwards the invocation has exactly one outcome. |
| Dispatcher.ExactlyOneOutcome | backend/gt-feed-server.c:218-300 | Every invocation ends with exactly one outcome. It is `NoReply` exactly when the method is not Query. There is at most one search, and it happens exactly for a Query with valid parameters. |
| Dispatcher.ValidQueryOutcome | backend/gt-feed-server.c:218-281 | For valid parameters: a refusal gives InvalidQuery, a failure is passed through, and a result is replied normalised (`NullReply` when normalising gives NULL). |
| Dispatcher.Receive | backend/gt-feed-server.c:283-300 | An arriving call starts its own invocation and leaves every other invocation unchanged. |
| Dispatcher.Deliver | backend/gt-feed-server.c:218-238 | A completion answers only the invocation it was issued for. |
| Dispatcher.DeliveriesCommute | backend/gt-feed-server.c:218-238 | Two overlapping searches can complete in either order with the same final state, and each invocation gets its own outcome. |
| Dispatcher.EmptyYearBecomesEmptyString | backend/gt-feed-server.c:170-238 | An `a{sv}` record whose `year` holds an empty maybe in its variant box reaches the caller with `year` as `""` and `title` unchanged. |
| Dispatcher.NullEntryRepliedEmpty | backend/gt-feed-server.c:186-238 | A valid Query whose result is `[{"year", Nothing}]` of type `a{sms}` is answered with `([],)`, not with a NULL reply. |
| Credential.New | backend/gt-feed-server.c:164-168 | The construct-time key, NULL included, is what the feed then holds. |
| Credential.GetProperty | backend/gt-feed-server.c:44-58 | `api-key` reads the feed's key. Any other property id yields nothing. |
| Credential.SetProperty | backend/gt-feed-server.c:60-74 | Writing `api-key` is then read back unchanged. Any other id changes nothing. |
| Credential.GetPropertyCall | backend/gt-feed-server.c:302-323 | "ApiKey" reads the stored key, or `""` when unset. Any other name yields no value. |
| Credential.ApiKeySet | backend/gt-feed-server.c:325-352 | A string is stored and PropertiesChanged is emitted. The write reports failure exactly when the emission fails, and the key is stored either way. A non-string changes nothing and reports success. |
| Credential.SetPropertyCall | backend/gt-feed-server.c:354-372 | Unknown names, and values that are not strings, change nothing and report success. A failure is reported only when an emission failed. |
| Credential.SetApiKey | backend/gt-feed-server.c:406-412 | A NULL key changes nothing. Any other key is then read back unchanged. |
| Credential.ReadPathsAgree | backend/gt-feed-server.c:302-323 | The bus read is the GObject read with NULL shown as `""`: both read the same single key. |
| Credential.BusWriteThenRead | backend/gt-feed-server.c:325-352 | After a bus write of a string, both read paths return that string, whether or not the emission succeeded. |
| Credential.LocalWriteThenBusRead | backend/gt-feed-server.c:406-412 | A key set through `gt_feed_server_set_apikey` or the GObject property is what the bus reads. |
| Credential.UnsetKeyReadsEmpty | backend/gt-feed-server.c:314-320 | An unset key reads as `""` over the bus. |
| Credential.BusWriteIdempotent | backend/gt-feed-server.c:325-352 | Repeating a bus write leaves the stored key as after the first write. |

## Left out

- Normalizer.FilterItem: GVariant types are not modelled. The builder's type check is derived from the untyped tree by the `Accepts` rule above. A rewritten child that comes back NULL fails the type check of every builder that expects a type, and is refused. A variant box's builder has no expected type, so GLib does not check the child and dereferences the NULL: undefined behaviour, in practice a crash. The model gives a NULL box as its stand-in, and the parent then treats it as any other NULL child. So the model answers inputs such as the `av` result `[<{"year", Nothing}>]` with `([],)`, where the program crashes. The critical warnings GLib logs for refused children are not modelled.
- Normalizer.CountAccepted: checks each child against its own slot. GLib does not move a tuple's or dict entry's expected type past a refused child, so the children after it are checked against the refused slot's type and usually refused too. The builder then comes up short either way and `g_variant_builder_end` returns NULL, so the results agree, but the count is not GLib's internal one.
- Normalizer.FilterChildrenNull: its NULL for a variant box given a NULL child stands in for a NULL dereference inside GLib, which the model cannot express.
- Normalizer.NullInBoxNullLoop: the NULL box it states is the model's stand-in, not GLib's behaviour. GLib dereferences the NULL child, which is undefined behaviour.
- Normalizer.NullChildDropped: its variant-box half states the stand-in NULL box. The program itself crashes on that input.
- Normalizer.FilterSearchResult: requires a container, because `g_variant_n_children` is defined only on containers and GLib aborts on anything else. `Dispatcher.Complete` carries the same requirement for a successful result.
- Credential.New: line 167 calls `g_object_new` without the NULL that must end its property list. The C code then reads a property name that was never passed, which is undefined behaviour. The model assumes the one property given is set as intended.
- Credential.ApiKeySet: when the emission fails it returns FALSE (line 348) without setting the `GError` that `set_property_call` receives (line 361), although GDBus expects an error to be set whenever a setter returns FALSE. The model records only the FALSE.
- `response_cb` (lines 115-142): acquiring the session bus and emitting `ResponseReceived` is I/O whose failures are only logged.
- `gt_feed_server_init`, `gt_feed_server_register`, `iface_vtable` and the interface XML (lines 144-162, 374-404): GDBus registration plumbing.
- `gt_feed_server_error_quark` (lines 425-436): one-time global registration of the error domain. Only its table is modelled.
- `dispose`, `finalize` and reference counting (lines 76-92, and the unrefs at 203, 235 and 298): memory management, not behaviour.
- The `GtFeed` backend: its header and source are not part of this model, so it is an oracle. The model assumes two things:
  - its `api-key` property stores and returns the value verbatim;
  - a search it refuses never calls back.
- The numeric values of the error codes and of `GT_FEED_SEARCH_MOVIES`/`GT_FEED_SEARCH_MAX`: they live in headers outside this model. The range is a parameter with `movies <= max`.
- The success of a PropertiesChanged emission is a parameter (`emitOk`). The signal's contents are not modelled.
- Translation macros `_()`/`N_()`: messages are plain strings.
- `ui/gtk/traktor/traktorwindow.py`: GTK window code with no logic of the bridge.

=== FILE: credential.dfy ===
/**
  The API key bridge. The server keeps no key of its own: every read and
  write, through GObject properties or over D-Bus, goes to the `api-key`
  property of the feed object it owns.
 */
module Credential {
  import opened Wrappers
  import opened Variant

  /** The feed object's `api-key`, the single place the credential lives; NULL is `None`. */
  datatype Feed = Feed(apiKey: Option<string>)

  /** The GObject property id of `api-key` on the server. */
  const PropApiKey: nat := 1

  /** The property name on the D-Bus interface. */
  const BusApiKey: string := "ApiKey"

  /** gt_feed_server_new: the construct-time property stores the given key, NULL included. */
  function New(apikey: Option<string>): (feed: Feed)
    ensures GetProperty(feed, PropApiKey) == Some(apikey)
  {
    SetProperty(Feed(None), PropApiKey, apikey)
  }

  /**
    get_property: the server's `api-key` reads the feed's. For any other id
    only a warning is issued and no value is produced (`None`).
   */
  function GetProperty(feed: Feed, id: nat): (r: Option<Option<string>>)
    ensures r.Some? <==> id == PropApiKey
    ensures r.Some? ==> r.value == feed.apiKey
  {
    if id == PropApiKey then Some(feed.apiKey) else None
  }

  /** set_property: writing the server's `api-key` writes the feed's; any other id changes nothing. */
  function SetProperty(feed: Feed, id: nat, value: Option<string>): (next: Feed)
    ensures id == PropApiKey ==> GetProperty(next, PropApiKey) == Some(value)
    ensures id != PropApiKey ==> next == feed
  {
    if id == PropApiKey then Feed(value) else feed
  }

  /**
    get_property_call: "ApiKey" reads as a string, an unset key as `""`; any
    other name yields no value (NULL).
   */
  function GetPropertyCall(feed: Feed, name: string): (r: Option<Value>)
    ensures r.Some? <==> name == BusApiKey
    ensures r.Some? && feed.apiKey.Some? ==> r.value == Str(feed.apiKey.value)
    ensures r.Some? && feed.apiKey.None? ==> r.value == Str("")
  {
    if name == BusApiKey then
      var key := GetProperty(feed, PropApiKey).value;
      Some(Str(key.GetOr("")))
    else None
  }

  /**
    The answer to a bus write: the feed afterwards, the boolean handed back
    to GDBus, and whether a PropertiesChanged emission was attempted.
   */
  datatype SetResult = SetResult(feed: Feed, ok: bool, emitted: bool)

  /**
    apikey_set: a string value is stored and PropertiesChanged is emitted;
    the write reports failure exactly when the emission fails, the key being
    stored either way. A value that is not a string reads as NULL: nothing
    changes and the write reports success. `emitOk` is the bus's verdict on
    the emission.
   */
  function ApiKeySet(feed: Feed, value: Value, emitOk: bool): (r: SetResult)
    ensures value.Str? ==> r.feed.apiKey == Some(value.s) && r.emitted && (r.ok <==> emitOk)
    ensures !value.Str? ==> r == SetResult(feed, true, false)
  {
    match value
    case Str(s) => SetResult(SetProperty(feed, PropApiKey, Some(s)), emitOk, true)
    case _ => SetResult(feed, true, false)
  }

  /** set_property_call: "ApiKey" goes to apikey_set; any other name is a successful no-op. */
  function SetPropertyCall(feed: Feed, name: string, value: Value, emitOk: bool): (r: SetResult)
    ensures name != BusApiKey || !value.Str? ==> r == SetResult(feed, true, false)
    ensures name == BusApiKey && value.Str? ==> r.feed.apiKey == Some(value.s) && r.emitted && (r.ok <==> emitOk)
    ensures !r.ok <==> r.emitted && !emitOk
  {
    if name == BusApiKey then ApiKeySet(feed, value, emitOk) else SetResult(feed, true, false)
  }

  /** gt_feed_server_set_apikey: a NULL key is refused and changes nothing. */
  function SetApiKey(feed: Feed, apikey: Option<string>): (next: Feed)
    ensures apikey.None? ==> next == feed
    ensures apikey.Some? ==> GetProperty(next, PropApiKey) == Some(apikey)
  {
    match apikey
    case None => feed
    case Some(_) => Feed(apikey)
  }

  /** Both read paths see the same key: the bus read is the GObject read with NULL as `""`. */
  lemma ReadPathsAgree(feed: Feed)
    ensures GetPropertyCall(feed, BusApiKey) == Some(Str(GetProperty(feed, PropApiKey).value.GetOr("")))
  {
  }

  /** A bus write of a string, whatever happens to the emission, is seen by both read paths. */
  lemma BusWriteThenRead(feed: Feed, key: string, emitOk: bool)
    ensures
      var after := SetPropertyCall(feed, BusApiKey, Str(key), emitOk).feed;
      && GetPropertyCall(after, BusApiKey) == Some(Str(key))
      && GetProperty(after, PropApiKey) == Some(Some(key))
  {
  }

  /** A write through set_apikey or the GObject property is seen by the bus read. */
  lemma LocalWriteThenBusRead(feed: Feed, key: string)
    ensures GetPropertyCall(SetApiKey(feed, Some(key)), BusApiKey) == Some(Str(key))
    ensures GetPropertyCall(SetProperty(feed, PropApiKey, Some(key)), BusApiKey) == Some(Str(key))
  {
  }

  /** An unset key reads as the empty string over the bus. */
  lemma UnsetKeyReadsEmpty(feed: Feed)
    requires feed.apiKey.None?
    ensures GetPropertyCall(feed, BusApiKey) == Some(Str(""))
  {
  }

  /** Writing again with the same value is a no-op on the stored key. */
  lemma BusWriteIdempotent(feed: Feed, name: string, value: Value, emitOk: bool)
    ensures
      var once := SetPropertyCall(feed, name, value, emitOk).feed;
      SetPropertyCall(once, name, value, emitOk).feed == once
  {
  }
}

=== FILE: dispatcher.dfy ===
/**
  The feed server's Query method: parameter validation, the call into the
  search backend, and the completion that answers the invocation. The
  backend is an oracle: whether it accepts a search, and how the search ends.
 */
module Dispatcher {
  import opened Wrappers
  import opened Variant
  import opened Normalizer

  /** The server's own error codes. */
  datatype ErrorCode = MissingParameter | InvalidQuery

  /** The `dbus_errors` table: the D-Bus error name registered for each code. */
  function DbusErrorName(code: ErrorCode): (name: string)
    ensures "org.mfs.GtraktError." <= name
  {
    match code
    case MissingParameter => "org.mfs.GtraktError.MissingParameter"
    case InvalidQuery => "org.mfs.GtraktError.InvalidQuery"
  }

  /** The table is one-to-one: a D-Bus error name identifies its code. */
  lemma DbusErrorNamesDistinct(a: ErrorCode, b: ErrorCode)
    ensures DbusErrorName(a) == DbusErrorName(b) <==> a == b
  {
  }

  const NoQueryMessage: string := "No query was specified."
  const BadTypeMessage: string := "Search type is not valid."
  const InvalidQueryMessage: string := "The specified query is invalid."

  /** A GError raised by the backend, carried to the caller as it is. */
  datatype BackendError = BackendError(domain: string, code: int, message: string)

  /**
    What an invocation receives. `NoReply` is the release of an invocation
    without an answer. `NullReply` is a reply built from a NULL normalised
    result, which `g_variant_new_tuple` does not define.
   */
  datatype Outcome =
    | Reply(body: Value)
    | Error(code: ErrorCode, message: string)
    | PassThrough(err: BackendError)
    | NoReply
    | NullReply

  /** The `(si)` parameters; a NULL query string is `None`. */
  datatype Params = Params(query: Option<string>, searchType: int)

  /** A search handed to the backend. */
  datatype SearchRequest = SearchRequest(searchType: int, query: string)

  /**
    The valid search types are `movies <= t < max`, for the backend's
    `GT_FEED_SEARCH_MOVIES` and `GT_FEED_SEARCH_MAX`.
   */
  datatype SearchRange = SearchRange(movies: int, max: int)
  type ValidRange = r: SearchRange | r.movies <= r.max witness SearchRange(0, 0)

  /** How an accepted backend search finishes. */
  datatype Completion = Found(content: Value) | Failed(err: BackendError)

  /**
    One method invocation: the searches issued for it, the outcomes delivered
    to it, and whether a backend completion is still due.
   */
  datatype Invocation = Invocation(searches: seq<SearchRequest>, outcomes: seq<Outcome>, awaiting: bool)

  /** At most one outcome, and none exactly while a completion is due. */
  predicate Settled(inv: Invocation) {
    && |inv.searches| <= 1
    && (if inv.awaiting then inv.outcomes == [] && |inv.searches| == 1 else |inv.outcomes| == 1)
  }

  /** The checks `query` makes before the backend is called. */
  predicate ParamsValid(p: Params, range: ValidRange) {
    p.query.Some? && range.movies <= p.searchType < range.max
  }

  /**
    query: a NULL query, then an out-of-range type, are refused with
    MissingParameter before any search; otherwise exactly one search is
    issued and a refusal by the backend yields InvalidQuery.
   */
  function Query(p: Params, range: ValidRange, accepts: bool): (inv: Invocation)
    ensures Settled(inv)
    ensures inv.searches != [] <==> ParamsValid(p, range)
    ensures inv.searches != [] ==> inv.searches == [SearchRequest(p.searchType, p.query.value)]
    ensures !ParamsValid(p, range) <==> inv.outcomes != [] && inv.outcomes[0].Error? && inv.outcomes[0].code == MissingParameter
    ensures p.query.None? ==> inv.outcomes == [Error(MissingParameter, NoQueryMessage)]
    ensures p.query.Some? && !(range.movies <= p.searchType < range.max) ==>
              inv.outcomes == [Error(MissingParameter, BadTypeMessage)]
    ensures ParamsValid(p, range) && !accepts ==> inv.outcomes == [Error(InvalidQuery, InvalidQueryMessage)]
    ensures inv.awaiting <==> ParamsValid(p, range) && accepts
  {
    match p.query
    case None => Invocation([], [Error(MissingParameter, NoQueryMessage)], false)
    case Some(q) =>
      if p.searchType < range.movies || p.searchType >= range.max then
        Invocation([], [Error(MissingParameter, BadTypeMessage)], false)
      else
        var issued := [SearchRequest(p.searchType, q)];
        if accepts then Invocation(issued, [], true)
        else Invocation(issued, [Error(InvalidQuery, InvalidQueryMessage)], false)
  }

  /** method_call: only "Query" is served; any other name is released unanswered. */
  function MethodCall(name: string, p: Params, range: ValidRange, accepts: bool): (inv: Invocation)
    ensures Settled(inv)
    ensures name == "Query" ==> inv == Query(p, range, accepts)
    ensures name != "Query" ==> inv.searches == [] && inv.outcomes == [NoReply]
    ensures inv.outcomes != [] && inv.outcomes[0] == NoReply ==> name != "Query"
  {
    if name == "Query" then Query(p, range, accepts)
    else Invocation([], [NoReply], false)
  }

  /**
    cb: a backend error is delivered as it is; a result is normalised and
    sent back as a one-element tuple, unless normalising it gave NULL.
   */
  function Complete(inv: Invocation, c: Completion): (done: Invocation)
    requires Settled(inv) && inv.awaiting
    requires c.Found? ==> c.content.Container?
    ensures Settled(done) && !done.awaiting
    ensures done.searches == inv.searches
    ensures c.Failed? ==> done.outcomes == [PassThrough(c.err)]
    ensures c.Found? && FilterItem(c.content).Some? ==>
              && done.outcomes[0].Reply?
              && done.outcomes[0].body.Container?
              && done.outcomes[0].body.kind == Tuple
              && done.outcomes[0].body.children == [FilterItem(c.content).value]
    ensures c.Found? && FilterItem(c.content).None? ==> done.outcomes == [NullReply]
  {
    var o := match c
      case Failed(e) => PassThrough(e)
      case Found(content) =>
        match FilterSearchResult(content)
        case Some(filtered) => Reply(Container(Tuple, [filtered]))
        case None => NullReply;
    Invocation(inv.searches, inv.outcomes + [o], false)
  }

  /** One invocation from arrival to its end, for a given backend behaviour. */
  function Run(name: string, p: Params, range: ValidRange, accepts: bool, c: Completion): (inv: Invocation)
    requires c.Found? ==> c.content.Container?
  {
    var started := MethodCall(name, p, range, accepts);
    if started.awaiting then Complete(started, c) else started
  }

  /**
    Every invocation ends with exactly one outcome; it is `NoReply` exactly
    for a method other than Query, and the backend is searched at most once,
    and only for valid parameters of a Query.
   */
  lemma ExactlyOneOutcome(name: string, p: Params, range: ValidRange, accepts: bool, c: Completion)
    requires c.Found? ==> c.content.Container?
    ensures |Run(name, p, range, accepts, c).outcomes| == 1
    ensures !Run(name, p, range, accepts, c).awaiting
    ensures Run(name, p, range, accepts, c).outcomes[0] == NoReply <==> name != "Query"
    ensures |Run(name, p, range, accepts, c).searches| <= 1
    ensures Run(name, p, range, accepts, c).searches != [] <==> name == "Query" && ParamsValid(p, range)
  {
  }

  /**
    The outcome of a valid Query is decided by the backend alone: a refusal
    gives InvalidQuery, a failure comes back unchanged, a result comes back
    normalised.
   */
  lemma ValidQueryOutcome(p: Params, range: ValidRange, accepts: bool, c: Completion)
    requires ParamsValid(p, range)
    requires c.Found? ==> c.content.Container?
    ensures !accepts ==> Run("Query", p, range, accepts, c).outcomes == [Error(InvalidQuery, InvalidQueryMessage)]
    ensures accepts && c.Failed? ==> Run("Query", p, range, accepts, c).outcomes == [PassThrough(c.err)]
    ensures accepts && c.Found? && FilterSearchResult(c.content).Some? ==>
      Run("Query", p, range, accepts, c).outcomes == [Reply(Container(Tuple, [FilterSearchResult(c.content).value]))]
    ensures accepts && c.Found? && FilterSearchResult(c.content).None? ==>
      Run("Query", p, range, accepts, c).outcomes == [NullReply]
  {
  }

  /**
    Only a NULL query is refused: an empty query string with a valid type is
    searched like any other.
   */
  lemma EmptyQuerySearched(t: int, range: ValidRange, accepts: bool)
    requires range.movies <= t < range.max
    ensures Query(Params(Some(""), t), range, accepts).searches == [SearchRequest(t, "")]
  {
  }

  /** The invocations in flight, keyed by an identifier of the invocation. */
  type Calls = map<nat, Invocation>

  /** A call arrives: a new invocation is started, the others are untouched. */
  function Receive(calls: Calls, id: nat, name: string, p: Params, range: ValidRange, accepts: bool): (next: Calls)
    requires id !in calls
    ensures next.Keys == calls.Keys + {id}
    ensures next[id] == MethodCall(name, p, range, accepts)
    ensures forall other | other in calls :: next[other] == calls[other]
  {
    calls[id := MethodCall(name, p, range, accepts)]
  }

  /** The backend completes the search of invocation `id`; the others are untouched. */
  function Deliver(calls: Calls, id: nat, c: Completion): (next: Calls)
    requires id in calls && Settled(calls[id]) && calls[id].awaiting
    requires c.Found? ==> c.content.Container?
    ensures next.Keys == calls.Keys
    ensures next[id] == Complete(calls[id], c)
    ensures forall other | other in calls && other != id :: next[other] == calls[other]
  {
    calls[id := Complete(calls[id], c)]
  }

  /**
    Two overlapping searches may finish in either order: each invocation gets
    the outcome of its own completion, whatever the order.
   */
  lemma DeliveriesCommute(calls: Calls, a: nat, ca: Completion, b: nat, cb: Completion)
    requires a != b
    requires a in calls && Settled(calls[a]) && calls[a].awaiting
    requires b in calls && Settled(calls[b]) && calls[b].awaiting
    requires ca.Found? ==> ca.content.Container?
    requires cb.Found? ==> cb.content.Container?
    ensures Deliver(Deliver(calls, a, ca), b, cb) == Deliver(Deliver(calls, b, cb), a, ca)
    ensures Deliver(Deliver(calls, a, ca), b, cb)[a] == Complete(calls[a], ca)
    ensures Deliver(Deliver(calls, a, ca), b, cb)[b] == Complete(calls[b], cb)
  {
  }

  /**
    A record list typed `a{sms}` whose only entry holds an empty maybe: the
    entry cannot be rebuilt and is left out, so the caller gets an empty list.
   */
  lemma NullEntryRepliedEmpty(p: Params, range: ValidRange)
    requires ParamsValid(p, range)
    ensures
      var entry := Container(DictEntry, [Str("year"), Nothing]);
      Run("Query", p, range, true, Found(Container(Array, [entry]))).outcomes
        == [Reply(Container(Tuple, [Container(Array, [])]))]
  {
    NullChildDropped();
    ValidQueryOutcome(p, range, true, Found(Container(Array, [Container(DictEntry, [Str("year"), Nothing])])));
  }

  /** The "year" entry of the record: its boxed empty maybe becomes `""`. */
  lemma YearEntryNormalised()
    ensures FilterItem(Container(DictEntry, [Str("year"), Container(Boxed, [Nothing])]))
              == Some(Container(DictEntry, [Str("year"), Container(Boxed, [Str("")])]))
  {
    var year := Container(DictEntry, [Str("year"), Container(Boxed, [Nothing])]);
    var year' := Container(DictEntry, [Str("year"), Container(Boxed, [Str("")])]);
    BoxedNestedMaybeNotIdempotent();
    PairRebuilt(DictEntry, Str("year"), Container(Boxed, [Nothing]), Str("year"), Container(Boxed, [Str("")]));
  }

  /** The one-record result list: the title entry is kept, the year entry rewritten. */
  lemma RecordListNormalised()
    ensures
      var title := Container(DictEntry, [Str("title"), Container(Boxed, [Str("Star Wars")])]);
      var year := Container(DictEntry, [Str("year"), Container(Boxed, [Nothing])]);
      var year' := Container(DictEntry, [Str("year"), Container(Boxed, [Str("")])]);
      FilterSearchResult(Container(Array, [title, year])) == Some(Container(Array, [title, year']))
  {
    var title := Container(DictEntry, [Str("title"), Container(Boxed, [Str("Star Wars")])]);
    var year := Container(DictEntry, [Str("year"), Container(Boxed, [Nothing])]);
    var year' := Container(DictEntry, [Str("year"), Container(Boxed, [Str("")])]);
    NoMaybeFixedPoint(title);
    YearEntryNormalised();
    PairRebuilt(Array, title, year, title, year');
  }

  /**
    The worked case of a search for which the backend returns one record
    whose "year" field is an empty maybe: the caller sees `""` there.
   */
  lemma EmptyYearBecomesEmptyString(p: Params, range: ValidRange)
    requires ParamsValid(p, range)
    ensures
      var title := Container(DictEntry, [Str("title"), Container(Boxed, [Str("Star Wars")])]);
      var year := Container(DictEntry, [Str("year"), Container(Boxed, [Nothing])]);
      var year' := Container(DictEntry, [Str("year"), Container(Boxed, [Str("")])]);
      Run("Query", p, range, true, Found(Container(Array, [title, year]))).outcomes
        == [Reply(Container(Tuple, [Container(Array, [title, year'])]))]
  {
    var title := Container(DictEntry, [Str("title"), Container(Boxed, [Str("Star Wars")])]);
    var year := Container(DictEntry, [Str("year"), Container(Boxed, [Nothing])]);
    var year' := Container(DictEntry, [Str("year"), Container(Boxed, [Str("")])]);
    RecordListNormalised();
    ValidQueryOutcome(p, range, true, Found(Container(Array, [title, year])));
  }
}

=== FILE: normalizer.dfy ===
/**
  The feed server's result normaliser. Each child of a container is passed
  through deal_maybe (a maybe becomes its payload, or the empty string when
  empty) and then normalised itself; the results are added to a GVariant
  builder made for the ORIGINAL container type. That builder refuses a child
  whose type changed, and a tuple, dict entry or variant box that ends up
  short of children cannot be built (the result is NULL, `None` here).
 */
module Normalizer {
  import opened Wrappers
  import opened Variant

  /**
    deal_maybe: a maybe yields its payload, or `Str("")` when empty; any other
    value passes through. It never grows the tree and, on well-formed trees,
    keeps well-formedness and the visible leaves.
   */
  function DealMaybe(v: Value): (r: Value)
    ensures Size(r) <= Size(v)
    ensures !v.IsMaybe() ==> r == v
    ensures v.IsMaybe() && v.children == [] ==> r == Str("")
    ensures v.IsMaybe() && |v.children| == 1 ==> r == v.children[0]
    ensures WellFormed(v) ==> WellFormed(r) && Leaves(r) == Leaves(v)
  {
    if !v.IsMaybe() then v
    else if |v.children| == 0 then Str("")
    else
      var x := v.children[0];
      ChildSize(v.children, 0);
      assert WellFormed(v) ==> v.children[..0] == [] && LeavesSeq(v.children) == Leaves(x);
      x
  }

  /**
    The type check of `g_variant_builder_add_value` on a rewritten child. A
    rewritten value keeps the type of what it rewrote unless deal_maybe
    unwrapped a maybe, and only a variant box takes a child of any type.
   */
  predicate Accepts(k: Kind, child: Value) {
    k == Boxed || !child.IsMaybe()
  }

  /**
    The builder's check on the value actually offered for `child`. A NULL
    fails the type check too, except in a variant box, whose builder expects
    no type.
   */
  predicate Takes(k: Kind, child: Value, offered: Option<Value>) {
    Accepts(k, child) && (k == Boxed || offered.Some?)
  }

  /** Containers whose type fixes the number of children; `g_variant_builder_end` fails when one is missing. */
  predicate FixedArity(k: Kind) {
    k == Tuple || k == DictEntry || k == Boxed
  }

  /** How many children of a `k` container pass the builder's type check once rewritten. */
  function CountAccepted(k: Kind, cs: seq<Value>): (n: nat)
    ensures n <= |cs|
    ensures n == |cs| <==> forall i | 0 <= i < |cs| :: Accepts(k, cs[i])
  {
    if cs == [] then 0
    else CountAccepted(k, cs[..|cs| - 1]) + (if Accepts(k, cs[|cs| - 1]) then 1 else 0)
  }

  /**
    filter_item: a non-container goes through deal_maybe unchanged; a
    container is rebuilt with the same kind from the rewritten children the
    builder takes, or is NULL when a variant box was offered a NULL child or
    a fixed-arity container lost a child.
   */
  function FilterItem(v: Value): (r: Option<Value>)
    decreases Size(v), 0
    ensures !v.Container? ==> r == Some(v)
    ensures r.Some? ==> r.value.Container? == v.Container?
    ensures r.Some? && v.Container? ==>
              && r.value.kind == v.kind
              && |r.value.children| <= CountAccepted(v.kind, v.children)
    ensures r.Some? && v.Container? && FixedArity(v.kind) ==> |r.value.children| == |v.children|
  {
    match v
    case Container(k, cs) =>
      var kept := FilterChildren(k, cs);
      if kept.None? || (FixedArity(k) && |kept.value| < |cs|) then None
      else Some(Container(k, kept.value))
    case _ => Some(DealMaybe(v))
  }

  /**
    The loop of filter_item over the children of a `k` container: the
    rewritten children the builder takes, in iteration order. A refused
    child is left out and the loop goes on. A NULL taken by a variant box
    makes the box NULL.
   */
  function FilterChildren(k: Kind, cs: seq<Value>): (r: Option<seq<Value>>)
    decreases SizeSeq(cs), 1
    ensures r.Some? ==> |r.value| <= CountAccepted(k, cs)
  {
    if cs == [] then Some([])
    else
      var init := FilterChildren(k, cs[..|cs| - 1]);
      var last := cs[|cs| - 1];
      var item := FilterItem(DealMaybe(last));
      if init.None? then None
      else if !Takes(k, last, item) then init
      else if item.None? then None
      else Some(init.value + [item.value])
  }

  /**
    The loop is NULL exactly when the container is a variant box and a
    rewritten child is NULL; any other container drops a NULL child.
   */
  lemma FilterChildrenNull(k: Kind, cs: seq<Value>)
    ensures (FilterChildren(k, cs).Some?
             <==> (k == Boxed ==> forall i | 0 <= i < |cs| :: FilterItem(DealMaybe(cs[i])).Some?))
  {
    if k == Boxed {
      forall i | 0 <= i < |cs| && FilterItem(DealMaybe(cs[i])).None?
        ensures FilterChildren(k, cs).None?
      {
        NullInBoxNullLoop(k, cs, i);
      }
    }
    if k == Boxed ==> forall i | 0 <= i < |cs| :: FilterItem(DealMaybe(cs[i])).Some? {
      NoNullChildSomeLoop(k, cs);
    }
  }

  /** A variant box offered a NULL rewritten child is NULL. */
  lemma {:induction false} NullInBoxNullLoop(k: Kind, cs: seq<Value>, i: nat)
    requires k == Boxed
    requires i < |cs| && FilterItem(DealMaybe(cs[i])).None?
    ensures FilterChildren(k, cs).None?
    decreases |cs|
  {
    if i < |cs| - 1 {
      var init := cs[..|cs| - 1];
      assert init[i] == cs[i];
      NullInBoxNullLoop(k, init, i);
    }
  }

  /** Outside a variant box, or with no NULL rewritten child, the loop is not NULL. */
  lemma {:induction false} NoNullChildSomeLoop(k: Kind, cs: seq<Value>)
    requires k == Boxed ==> forall i | 0 <= i < |cs| :: FilterItem(DealMaybe(cs[i])).Some?
    ensures FilterChildren(k, cs).Some?
    decreases |cs|
  {
    if cs != [] {
      var init := cs[..|cs| - 1];
      assert forall i | 0 <= i < |init| :: init[i] == cs[i];
      NoNullChildSomeLoop(k, init);
    }
  }

  /**
    How many children of a `k` container the builder takes: those that pass
    the type check once rewritten and are not NULL, or any child of a
    variant box.
   */
  function CountTaken(k: Kind, cs: seq<Value>): (n: nat)
    ensures n <= CountAccepted(k, cs)
    ensures (forall i | 0 <= i < |cs| :: Accepts(k, cs[i]) && FilterItem(DealMaybe(cs[i])).Some?) ==> n == |cs|
    decreases |cs|
  {
    if cs == [] then 0
    else
      var init := cs[..|cs| - 1];
      var last := cs[|cs| - 1];
      assert forall i | 0 <= i < |init| :: init[i] == cs[i];
      CountTaken(k, init) + (if Takes(k, last, FilterItem(DealMaybe(last))) then 1 else 0)
  }

  /** A non-NULL loop keeps exactly the children the builder takes. */
  lemma {:induction false} FilterChildrenCount(k: Kind, cs: seq<Value>)
    requires FilterChildren(k, cs).Some?
    ensures |FilterChildren(k, cs).value| == CountTaken(k, cs)
    decreases |cs|
  {
    if cs != [] {
      FilterChildrenCount(k, cs[..|cs| - 1]);
    }
  }

  /**
    When every child is accepted and none comes back NULL, child `i` of the
    rebuilt container is `FilterItem(DealMaybe(child i))`, at the same position.
   */
  lemma {:induction false} FilterChildrenAll(k: Kind, cs: seq<Value>)
    requires forall i | 0 <= i < |cs| :: Accepts(k, cs[i]) && FilterItem(DealMaybe(cs[i])).Some?
    ensures FilterChildren(k, cs).Some?
    ensures |FilterChildren(k, cs).value| == |cs|
    ensures forall i | 0 <= i < |cs| :: FilterChildren(k, cs).value[i] == FilterItem(DealMaybe(cs[i])).value
  {
    NoNullChildSomeLoop(k, cs);
    FilterChildrenCount(k, cs);
    forall i | 0 <= i < |cs|
      ensures FilterItem(DealMaybe(cs[i])) == Some(FilterChildren(k, cs).value[i])
    {
      FilterChildrenAt(k, cs, i);
    }
  }

  /** Child `i` of a container whose children are all taken is kept at position `i`. */
  lemma {:induction false} FilterChildrenAt(k: Kind, cs: seq<Value>, i: nat)
    requires forall j | 0 <= j < |cs| :: Accepts(k, cs[j]) && FilterItem(DealMaybe(cs[j])).Some?
    requires FilterChildren(k, cs).Some?
    requires i < |cs|
    ensures |FilterChildren(k, cs).value| == |cs|
    ensures FilterItem(DealMaybe(cs[i])) == Some(FilterChildren(k, cs).value[i])
    decreases |cs|
  {
    FilterChildrenCount(k, cs);
    var init := cs[..|cs| - 1];
    var item := FilterItem(DealMaybe(cs[|cs| - 1]));
    assert Takes(k, cs[|cs| - 1], item) && item.Some?;
    assert FilterChildren(k, cs).value == FilterChildren(k, init).value + [item.value];
    if i < |cs| - 1 {
      assert forall j | 0 <= j < |init| :: init[j] == cs[j];
      FilterChildrenAt(k, init, i);
    }
  }

  /** A two-child container whose children are both accepted is rebuilt from their rewrites. */
  lemma PairRebuilt(k: Kind, a: Value, b: Value, a': Value, b': Value)
    requires Accepts(k, a) && Accepts(k, b)
    requires FilterItem(DealMaybe(a)) == Some(a') && FilterItem(DealMaybe(b)) == Some(b')
    ensures FilterItem(Container(k, [a, b])) == Some(Container(k, [a', b']))
  {
    PairKept(k, a, b, a', b');
  }

  /** The loop over two accepted children keeps both rewrites, in order. */
  lemma PairKept(k: Kind, a: Value, b: Value, a': Value, b': Value)
    requires Accepts(k, a) && Accepts(k, b)
    requires FilterItem(DealMaybe(a)) == Some(a') && FilterItem(DealMaybe(b)) == Some(b')
    ensures FilterChildren(k, [a, b]) == Some([a', b'])
  {
    SnocKept(k, [], [], a, a');
    assert [] + [a] == [a] && [] + [a'] == [a'];
    SnocKept(k, [a], [a'], b, b');
    assert [a] + [b] == [a, b] && [a'] + [b'] == [a', b'];
  }

  /** An accepted child appended to the loop's input is appended, rewritten, to its output. */
  lemma SnocKept(k: Kind, cs: seq<Value>, kept: seq<Value>, x: Value, x': Value)
    requires FilterChildren(k, cs) == Some(kept)
    requires Accepts(k, x) && FilterItem(DealMaybe(x)) == Some(x')
    ensures FilterChildren(k, cs + [x]) == Some(kept + [x'])
  {
    assert (cs + [x])[..|cs|] == cs;
  }

  /** A refused child, whose type changed or which is NULL outside a variant box, leaves the loop's output as it was. */
  lemma SnocRefused(k: Kind, cs: seq<Value>, kept: seq<Value>, x: Value)
    requires FilterChildren(k, cs) == Some(kept)
    requires !Takes(k, x, FilterItem(DealMaybe(x)))
    ensures FilterChildren(k, cs + [x]) == Some(kept)
  {
    assert (cs + [x])[..|cs|] == cs;
  }

  /** A one-child container whose child is accepted is rebuilt from its rewrite. */
  lemma SingleRebuilt(k: Kind, a: Value, a': Value)
    requires Accepts(k, a) && FilterItem(DealMaybe(a)) == Some(a')
    ensures FilterItem(Container(k, [a])) == Some(Container(k, [a']))
  {
    SnocKept(k, [], [], a, a');
    assert [] + [a] == [a] && [] + [a'] == [a'];
    FinishRebuild(k, [a], [a']);
  }

  /** Ending the builder: the kept children, unless a fixed-arity container came up short. */
  lemma FinishRebuild(k: Kind, cs: seq<Value>, kept: seq<Value>)
    requires FilterChildren(k, cs) == Some(kept)
    ensures FilterItem(Container(k, cs))
              == if FixedArity(k) && |kept| < |cs| then None else Some(Container(k, kept))
  {
  }

  /** Whatever holds of every accepted rewritten child holds of every kept child. */
  lemma {:induction false} KeptSatisfy(k: Kind, cs: seq<Value>, P: Value -> bool)
    requires forall i | 0 <= i < |cs| ::
               Accepts(k, cs[i]) && FilterItem(DealMaybe(cs[i])).Some? ==> P(FilterItem(DealMaybe(cs[i])).value)
    requires FilterChildren(k, cs).Some?
    ensures forall j | 0 <= j < |FilterChildren(k, cs).value| :: P(FilterChildren(k, cs).value[j])
    decreases |cs|
  {
    if cs != [] {
      KeptSatisfy(k, cs[..|cs| - 1], P);
    }
  }

  /** One more child for the loop: the step `FilterChildren` takes on a prefix. */
  lemma FilterChildrenStep(k: Kind, cs: seq<Value>, i: nat)
    requires i < |cs|
    ensures
      var init := FilterChildren(k, cs[..i]);
      var item := FilterItem(DealMaybe(cs[i]));
      FilterChildren(k, cs[..i + 1])
        == if init.None? then None
           else if !Takes(k, cs[i], item) then init
           else if item.None? then None
           else Some(init.value + [item.value])
  {
    assert cs[..i + 1][..i] == cs[..i];
  }

  /** One turn of the builder loop that does not end in a NULL box. */
  lemma LoopStep(k: Kind, cs: seq<Value>, i: nat, built: seq<Value>, item: Option<Value>, built': seq<Value>)
    requires i < |cs| && FilterChildren(k, cs[..i]) == Some(built)
    requires FilterItem(DealMaybe(cs[i])) == item
    requires Takes(k, cs[i], item) ==> item.Some?
    requires built' == if Takes(k, cs[i], item) then built + [item.value] else built
    ensures FilterChildren(k, cs[..i + 1]) == Some(built')
  {
    FilterChildrenStep(k, cs, i);
  }

  /**
    filter_item as written: a non-container goes through deal_maybe; a
    container is rebuilt by the builder loop and then finished, which fails
    for a tuple, dict entry or variant box that lost a child. It computes
    exactly `FilterItem`.
   */
  method FilterItemLoop(v: Value) returns (r: Option<Value>)
    ensures r == FilterItem(v)
    decreases Size(v), 1
  {
    if !v.Container? {
      return Some(DealMaybe(v));
    }
    var kept := FilterChildrenLoop(v.kind, v.children);
    if kept.None? || (FixedArity(v.kind) && |kept.value| < |v.children|) {
      return None;
    }
    r := Some(Container(v.kind, kept.value));
  }

  /**
    The builder loop of filter_item: the children are visited in iterator
    order and each rewritten child is offered to the builder, which keeps it
    only if it is not NULL and its type is unchanged. A variant box takes
    anything, and a NULL it takes makes it NULL. It computes exactly
    `FilterChildren`.
   */
  method FilterChildrenLoop(k: Kind, cs: seq<Value>) returns (r: Option<seq<Value>>)
    ensures r == FilterChildren(k, cs)
    decreases SizeSeq(cs), 2
  {
    var built: seq<Value> := [];
    var i := 0;
    while i < |cs|
      invariant i <= |cs|
      invariant FilterChildren(k, cs[..i]) == Some(built)
    {
      ChildSize(cs, i);
      var filtered := FilterItemLoop(DealMaybe(cs[i]));
      var before := built;
      if Takes(k, cs[i], filtered) {
        if filtered.None? {
          NullInBoxNullLoop(k, cs, i);
          return None;
        }
        built := built + [filtered.value];
      }
      LoopStep(k, cs, i, before, filtered, built);
      i := i + 1;
    }
    assert cs[..|cs|] == cs;
    r := Some(built);
  }

  /**
    filter_search_result: a result without children is handed back as it is,
    anything else goes through filter_item. `g_variant_n_children` is defined
    only on containers, hence the requirement.
   */
  function FilterSearchResult(content: Value): (r: Option<Value>)
    requires content.Container?
    ensures |content.children| == 0 ==> r == Some(content)
    ensures r == FilterItem(content)
  {
    if |content.children| == 0 then Some(content) else FilterItem(content)
  }

  /** A tree without any maybe is a fixed point of the normaliser. */
  lemma {:induction false} NoMaybeFixedPoint(v: Value)
    requires NoMaybe(v)
    ensures FilterItem(v) == Some(v)
    decreases Size(v), 0
  {
    match v
    case Container(k, cs) => NoMaybeChildrenKept(k, cs);
    case _ =>
  }

  /** Children without any maybe are all kept, unchanged. */
  lemma {:induction false} NoMaybeChildrenKept(k: Kind, cs: seq<Value>)
    requires forall i | 0 <= i < |cs| :: NoMaybe(cs[i])
    ensures FilterChildren(k, cs) == Some(cs)
    decreases SizeSeq(cs), 1
  {
    forall i | 0 <= i < |cs|
      ensures Accepts(k, cs[i]) && FilterItem(DealMaybe(cs[i])) == Some(cs[i])
    {
      ChildSize(cs, i);
      NoMaybeFixedPoint(cs[i]);
    }
    FilterChildrenAll(k, cs);
    assert FilterChildren(k, cs).value == cs;
  }

  /** Nothing below the root of `w` is a maybe. */
  predicate NoMaybeBelow(w: Value) {
    w.Container? ==> forall j | 0 <= j < |w.children| :: NoMaybe(w.children[j])
  }

  /**
    With no maybe directly holding a maybe, a non-NULL result has no maybe
    below its root, and none at all when the root is not a maybe.
   */
  lemma {:induction false} FilterRemovesMaybes(v: Value)
    requires NoMaybeOfMaybe(v) && FilterItem(v).Some?
    ensures NoMaybeBelow(FilterItem(v).value)
    ensures !v.IsMaybe() ==> NoMaybe(FilterItem(v).value)
    decreases Size(v), 0
  {
    match v
    case Container(k, cs) =>
      forall i | 0 <= i < |cs| && Accepts(k, cs[i]) && FilterItem(DealMaybe(cs[i])).Some?
        ensures NoMaybe(FilterItem(DealMaybe(cs[i])).value)
      {
        ChildSize(cs, i);
        var d := DealMaybe(cs[i]);
        assert !d.IsMaybe() && NoMaybeOfMaybe(d);
        FilterRemovesMaybes(d);
      }
      KeptSatisfy(k, cs, NoMaybe);
    case _ =>
  }

  /**
    With no maybe directly holding a maybe, a second pass over a non-NULL
    result changes nothing.
   */
  lemma FilterIdempotent(v: Value)
    requires NoMaybeOfMaybe(v) && FilterItem(v).Some?
    ensures FilterItem(FilterItem(v).value) == FilterItem(v)
  {
    var w := FilterItem(v).value;
    FilterRemovesMaybes(v);
    if w.Container? {
      NoMaybeChildrenKept(w.kind, w.children);
    }
  }

  /** A non-NULL result of a well-formed tree is well-formed. */
  lemma {:induction false} FilterWellFormed(v: Value)
    requires WellFormed(v) && FilterItem(v).Some?
    ensures WellFormed(FilterItem(v).value)
    decreases Size(v), 0
  {
    match v
    case Container(k, cs) =>
      forall i | 0 <= i < |cs| && Accepts(k, cs[i]) && FilterItem(DealMaybe(cs[i])).Some?
        ensures WellFormed(FilterItem(DealMaybe(cs[i])).value)
      {
        ChildSize(cs, i);
        FilterWellFormed(DealMaybe(cs[i]));
      }
      KeptSatisfy(k, cs, WellFormed);
    case _ =>
  }

  /**
    When every maybe child sits in a variant box, the builder accepts every
    child: the result is never NULL and no child is dropped.
   */
  lemma {:induction false} BoxedMaybesKept(v: Value)
    requires MaybesBoxed(v)
    ensures FilterItem(v).Some?
    ensures v.Container? ==> |FilterItem(v).value.children| == |v.children|
    decreases Size(v), 0
  {
    match v
    case Container(k, cs) =>
      forall i | 0 <= i < |cs|
        ensures Accepts(k, cs[i]) && FilterItem(DealMaybe(cs[i])).Some?
      {
        ChildSize(cs, i);
        BoxedMaybesKept(DealMaybe(cs[i]));
      }
      FilterChildrenAll(k, cs);
    case _ =>
  }

  /**
    When every maybe child sits in a variant box, no data is lost: the leaves
    of the result, in order, are those of the input, an empty maybe reading
    as the empty string.
   */
  lemma {:induction false} FilterKeepsLeaves(v: Value)
    requires WellFormed(v) && MaybesBoxed(v)
    ensures FilterItem(v).Some?
    ensures Leaves(FilterItem(v).value) == Leaves(v)
    decreases Size(v), 0
  {
    match v
    case Container(k, cs) =>
      forall i | 0 <= i < |cs|
        ensures Accepts(k, cs[i]) && FilterItem(DealMaybe(cs[i])).Some?
        ensures Leaves(FilterItem(DealMaybe(cs[i])).value) == Leaves(cs[i])
      {
        ChildSize(cs, i);
        var d := DealMaybe(cs[i]);
        assert WellFormed(cs[i]) && MaybesBoxed(cs[i]);
        assert MaybesBoxed(d);
        FilterKeepsLeaves(d);
      }
      FilterChildrenAll(k, cs);
      KeptLeaves(k, cs);
      var kept := FilterChildren(k, cs).value;
      assert |kept| == |cs| && FilterItem(v) == Some(Container(k, kept));
    case _ =>
  }

  lemma {:induction false} KeptLeaves(k: Kind, cs: seq<Value>)
    requires forall i | 0 <= i < |cs| :: Accepts(k, cs[i]) && FilterItem(DealMaybe(cs[i])).Some?
    requires forall i | 0 <= i < |cs| :: Leaves(FilterItem(DealMaybe(cs[i])).value) == Leaves(cs[i])
    ensures FilterChildren(k, cs).Some?
    ensures LeavesSeq(FilterChildren(k, cs).value) == LeavesSeq(cs)
    decreases |cs|
  {
    FilterChildrenAll(k, cs);
    if cs != [] {
      var init := cs[..|cs| - 1];
      KeptLeaves(k, init);
      var kept := FilterChildren(k, cs).value;
      assert kept == FilterChildren(k, init).value + [FilterItem(DealMaybe(cs[|cs| - 1])).value];
      assert kept[..|kept| - 1] == FilterChildren(k, init).value;
    }
  }

  /**
    The guarantees for a whole search result whose root is not a maybe and in
    which no maybe holds a maybe: a non-NULL result has no maybe left, a
    second pass changes nothing, and it is well-formed.
   */
  lemma SearchResultNormalised(content: Value)
    requires content.Container? && content.kind != Maybe
    requires NoMaybeOfMaybe(content) && WellFormed(content)
    requires FilterSearchResult(content).Some?
    ensures NoMaybe(FilterSearchResult(content).value)
    ensures FilterSearchResult(FilterSearchResult(content).value) == FilterSearchResult(content)
    ensures WellFormed(FilterSearchResult(content).value)
  {
    FilterRemovesMaybes(content);
    FilterIdempotent(content);
    FilterWellFormed(content);
  }

  /**
    For a search result whose maybe children all sit in variant boxes (an
    `a{sv}` record list, say), the result is never NULL and keeps every leaf.
   */
  lemma SearchResultKeepsData(content: Value)
    requires content.Container? && WellFormed(content) && MaybesBoxed(content)
    ensures FilterSearchResult(content).Some?
    ensures Leaves(FilterSearchResult(content).value) == Leaves(content)
  {
    FilterKeepsLeaves(content);
  }

  /** A maybe at the root is never unwrapped: an empty one stays as it is. */
  lemma MaybeRootKept()
    ensures FilterItem(Nothing) == Some(Nothing)
    ensures !NoMaybe(FilterItem(Nothing).value)
  {
  }

  /**
    A maybe outside a variant box is refused once rewritten: an array of
    maybes (`ams`) comes back empty, and a tuple holding one (`(s ms)`) cannot
    be built at all.
   */
  lemma UnboxedMaybesLost()
    ensures FilterItem(Container(Array, [Just(Str("a")), Nothing])) == Some(Container(Array, []))
    ensures FilterItem(Container(Tuple, [Str("t"), Nothing])) == None
    ensures FilterItem(Just(Just(Nothing))) == Some(Nothing)
  {
    ArrayOfMaybesEmptied();
    TupleWithMaybeNull();
    MaybeOfMaybeEmptied();
  }

  /** The rewritten maybes of an `ams` array are all refused. */
  lemma ArrayOfMaybesEmptied()
    ensures FilterItem(Container(Array, [Just(Str("a")), Nothing])) == Some(Container(Array, []))
  {
    assert !Accepts(Array, Just(Str("a"))) && !Accepts(Array, Nothing);
    SnocRefused(Array, [], [], Just(Str("a")));
    assert [] + [Just(Str("a"))] == [Just(Str("a"))];
    SnocRefused(Array, [Just(Str("a"))], [], Nothing);
    assert [Just(Str("a"))] + [Nothing] == [Just(Str("a")), Nothing];
    FinishRebuild(Array, [Just(Str("a")), Nothing], []);
  }

  /** An `(s ms)` tuple keeps only its string, so it is one child short and cannot be built. */
  lemma TupleWithMaybeNull()
    ensures FilterItem(Container(Tuple, [Str("t"), Nothing])) == None
  {
    assert !Accepts(Tuple, Nothing) && FilterItem(DealMaybe(Str("t"))) == Some(Str("t"));
    SnocKept(Tuple, [], [], Str("t"), Str("t"));
    assert [] + [Str("t")] == [Str("t")];
    SnocRefused(Tuple, [Str("t")], [Str("t")], Nothing);
    assert [Str("t")] + [Nothing] == [Str("t"), Nothing];
    FinishRebuild(Tuple, [Str("t"), Nothing], [Str("t")]);
  }

  /**
    A NULL child is refused like a child whose type changed: an `a{sms}`
    entry that cannot be built is left out of its array, while a variant box
    offered the same NULL becomes NULL itself.
   */
  lemma NullChildDropped()
    ensures FilterItem(Container(Array, [Container(DictEntry, [Str("year"), Nothing])])) == Some(Container(Array, []))
    ensures FilterItem(Container(Boxed, [Container(DictEntry, [Str("year"), Nothing])])) == None
  {
    var e := Container(DictEntry, [Str("year"), Nothing]);
    EntryWithMaybeNull();
    NullOutsideBoxDropped(Array, e);
    NullInBoxNullLoop(Boxed, [e], 0);
  }

  /** A lone child whose rewrite is NULL is left out of an array or maybe. */
  lemma NullOutsideBoxDropped(k: Kind, e: Value)
    requires k == Array || k == Maybe
    requires FilterItem(DealMaybe(e)).None?
    ensures FilterItem(Container(k, [e])) == Some(Container(k, []))
  {
    assert !Takes(k, e, FilterItem(DealMaybe(e))) && !FixedArity(k);
    SnocRefused(k, [], [], e);
    assert [] + [e] == [e];
    FinishRebuild(k, [e], []);
  }

  /** An `{s ms}` entry keeps only its key, so it is one child short and cannot be built. */
  lemma EntryWithMaybeNull()
    ensures FilterItem(Container(DictEntry, [Str("year"), Nothing])) == None
  {
    assert !Accepts(DictEntry, Nothing) && FilterItem(DealMaybe(Str("year"))) == Some(Str("year"));
    SnocKept(DictEntry, [], [], Str("year"), Str("year"));
    assert [] + [Str("year")] == [Str("year")];
    SnocRefused(DictEntry, [Str("year")], [Str("year")], Nothing);
    assert [Str("year")] + [Nothing] == [Str("year"), Nothing];
    FinishRebuild(DictEntry, [Str("year"), Nothing], [Str("year")]);
  }

  /** The unwrapped inner maybe of an `mms` value is refused. */
  lemma MaybeOfMaybeEmptied()
    ensures FilterItem(Just(Just(Nothing))) == Some(Nothing)
  {
    SnocRefused(Maybe, [], [], Just(Nothing));
    assert [] + [Just(Nothing)] == [Just(Nothing)];
    FinishRebuild(Maybe, [Just(Nothing)], []);
  }

  /**
    A maybe in a variant box holding a maybe leaves a maybe behind, so a
    second pass changes the result: `<Just(Nothing)>` becomes `<Nothing>`,
    then `<"">`.
   */
  lemma BoxedNestedMaybeNotIdempotent()
    ensures FilterItem(Container(Boxed, [Just(Nothing)])) == Some(Container(Boxed, [Nothing]))
    ensures FilterItem(Container(Boxed, [Nothing])) == Some(Container(Boxed, [Str("")]))
  {
    MaybeRootKept();
    SingleRebuilt(Boxed, Just(Nothing), Nothing);
    SingleRebuilt(Boxed, Nothing, Str(""));
  }
}

=== FILE: variant.dfy ===
/**
  An untyped model of GLib's GVariant values as seen by the feed server's
  result normaliser: strings, other basic values, and the five container
  classes. Static GVariant types are not modelled.
 */
module Variant {

  /** The classes for which `g_variant_is_container` holds. A maybe is one of them. */
  datatype Kind = Array | Tuple | DictEntry | Boxed | Maybe

  /** Basic values other than strings; their payload is never inspected. */
  datatype Atom = Boolean(b: bool) | Integer(i: int)

  datatype Value =
    | Str(s: string)
    | Basic(atom: Atom)
    | Container(kind: Kind, children: seq<Value>)
  {
    predicate IsMaybe() {
      Container? && kind == Maybe
    }
  }

  /** The empty maybe (`Nothing`) and the present maybe (`Just x`). */
  const Nothing: Value := Container(Maybe, [])

  function Just(x: Value): (r: Value)
    ensures r.IsMaybe() && r.children == [x]
  {
    Container(Maybe, [x])
  }

  /** Number of nodes of a tree; the termination measure of the normaliser. */
  function Size(v: Value): (n: nat)
    decreases v, 1
    ensures n >= 1
  {
    match v
    case Container(_, cs) => 1 + SizeSeq(cs)
    case _ => 1
  }

  /** Children are summed from the last one back, the order in which the normaliser's proofs peel them. */
  function SizeSeq(cs: seq<Value>): nat
    decreases cs, 0
  {
    if cs == [] then 0 else SizeSeq(cs[..|cs| - 1]) + Size(cs[|cs| - 1])
  }

  /** Every child is strictly smaller than the container holding it. */
  lemma {:induction false} ChildSize(cs: seq<Value>, i: nat)
    requires i < |cs|
    ensures Size(cs[i]) <= SizeSeq(cs)
    decreases |cs|
  {
    if i < |cs| - 1 {
      ChildSize(cs[..|cs| - 1], i);
    }
  }

  /** How many children each container class admits. */
  predicate ArityOk(k: Kind, n: nat) {
    match k
    case Maybe => n <= 1
    case Boxed => n == 1
    case DictEntry => n == 2
    case _ => true
  }

  /** The trees GLib can build: arities respected everywhere. */
  predicate WellFormed(v: Value) {
    match v
    case Container(k, cs) =>
      && ArityOk(k, |cs|)
      && forall i | 0 <= i < |cs| :: WellFormed(cs[i])
    case _ => true
  }

  /** No maybe anywhere in the tree, the root included. */
  predicate NoMaybe(v: Value) {
    match v
    case Container(k, cs) =>
      && k != Maybe
      && forall i | 0 <= i < |cs| :: NoMaybe(cs[i])
    case _ => true
  }

  /** No maybe anywhere whose payload is itself a maybe. */
  predicate NoMaybeOfMaybe(v: Value) {
    match v
    case Container(k, cs) =>
      && (k == Maybe ==> forall i | 0 <= i < |cs| :: !cs[i].IsMaybe())
      && forall i | 0 <= i < |cs| :: NoMaybeOfMaybe(cs[i])
    case _ => true
  }

  /**
    Every maybe that is a child of a container sits directly in a variant box
    (as the values of an `a{sv}` record do); a maybe may still be the root.
   */
  predicate MaybesBoxed(v: Value) {
    match v
    case Container(k, cs) =>
      && (k != Boxed ==> forall i | 0 <= i < |cs| :: !cs[i].IsMaybe())
      && forall i | 0 <= i < |cs| :: MaybesBoxed(cs[i])
    case _ => true
  }

  /** A maybe's payload is not in a box, so boxed maybes exclude maybes of maybes. */
  lemma {:induction false} MaybesBoxedNotNested(v: Value)
    requires MaybesBoxed(v)
    ensures NoMaybeOfMaybe(v)
    decreases v
  {
    match v
    case Container(k, cs) =>
      forall i | 0 <= i < |cs|
        ensures NoMaybeOfMaybe(cs[i])
      {
        MaybesBoxedNotNested(cs[i]);
      }
    case _ =>
  }

  /**
    The scalar leaves of a tree in depth-first order, where an empty maybe
    reads as the empty string: the data a consumer of the tree can see.
   */
  function Leaves(v: Value): seq<Value>
    decreases v, 1
  {
    match v
    case Container(k, cs) =>
      if k == Maybe && cs == [] then [Str("")] else LeavesSeq(cs)
    case _ => [v]
  }

  function LeavesSeq(cs: seq<Value>): seq<Value>
    decreases cs, 0
  {
    if cs == [] then [] else LeavesSeq(cs[..|cs| - 1]) + Leaves(cs[|cs| - 1])
  }
}

=== FILE: wrappers.dfy ===
/** The optional value used wherever the C code passes a nullable pointer. */
module Wrappers {

  /** `None` stands for a NULL pointer, `Some(v)` for a present value. */
  datatype Option<+T> = None | Some(value: T) {

    /** The present value, or `default` when absent. */
    function GetOr(default: T): (r: T)
      ensures Some? ==> r == value
      ensures None? ==> r == default
    {
      match this
      case Some(v) => v
      case None => default
    }
  }
}
